=== FILE: README.md ===
# Result normalisation and column labelling of the SQL dashboard

The dashboard turns an English question into a SQL query, runs it, and shows
the result as a table. This project models the two steps between running the
query and showing the table:

- **Decimal conversion** (`execute_sql_and_convert` in `Sql_Integration/sql.py`).
  The text that `db.run` returns is parsed back into row tuples. Every exact
  `Decimal` cell becomes an integer when `item % 1 == 0` and a float otherwise.
  Any exception becomes the text `Error executing SQL: ...`.
- **Column labelling** (the block after `pd.DataFrame(result)` in
  `Sql_Integration/streamlit.py`). A non-empty frame gets labels guessed from
  the generated SQL text. There are three cases:
  - for `SELECT *`, the schema of the table after `FROM`;
  - for a clause naming an aggregate, `FUNC` or `FUNC_arg`;
  - otherwise, the comma-separated pieces, stripped and without backticks.

  The guesses are then reconciled with the number of columns. When they are
  too few, the labels fall back to the table schema and then to
  `column_1 .. column_n`.

Modules:

- `Results`: `Option` and `Result`.
- `Text`: Python's whitespace class, ASCII case mapping, `strip`,
  `split(',')`, ``replace('`', '')``, and decimal numerals.
- `Patterns`: the three regular-expression searches as scanners. Each scanner
  is proved to return the match a backtracking engine returns. That match has
  the leftmost start. After that, greedy repetitions take as much as they can,
  lazy ones as little as they can, and alternatives are tried in written
  order.
- `Convert`: the decimal conversion and the response of
  `execute_sql_and_convert`.
- `Labels`: candidate labels, reconciliation, frame width and emptiness, and
  what the result section shows.
- `Scenarios`: worked examples on queries of the shapes the few-shot prompt
  produces.

External calls are parameters:

- `db.run(sql_query)` is a `Result<string, string>`: the returned text, or
  the message of what it raised.
- `eval(result)` is a function from that text to parsed rows or an error
  message.
- `get_columns_for_table` is a `Schema`, a function from a table name to its
  column names or the message of what it raised. Because it is a function,
  the two lookups of the same table (lines 341 and 369) are taken to give the
  same answer.

Two points of the code are easy to misread:

- The schema lookup of the `SELECT *` branch (`streamlit.py:341`) is outside
  the inner `try` of lines 368-377. When it raises, the whole result section
  fails with `Error processing data: ...` (lines 391-394).
  `Labels.LabelColumns` and `Labels.Present` state exactly when that happens.
- Too few candidates are discarded, not padded: the candidates are used only
  when there are at least as many as columns, and then truncated
  (`[:len(df.columns)]`).

## Model

| member | source | states |
|---|---|---|
| Text.LowerAll | Sql_Integration/streamlit.py:344 | `.lower()` keeps the length and maps each character on its own, leaving no ASCII capital. |
| Text.UpperAll | Sql_Integration/streamlit.py:351 | `.upper()` keeps the length and maps each character on its own, leaving no ASCII small letter. |
| Text.CaseRoundTrip | Sql_Integration/streamlit.py:344-351 | `.lower()` sends each capital A-Z to its own small letter, and `.upper()` brings it back; the same holds from small letters. |
| Text.Strip | Sql_Integration/streamlit.py:331 | `str.strip()` leaves no whitespace, in Python's `isspace` sense, at either end of the result. |
| Text.StripPadded | Sql_Integration/streamlit.py:357 | Stripping whitespace, then a core that neither starts nor ends with whitespace, then whitespace, gives exactly that core. |
| Text.StripKeepsTrimmed | Sql_Integration/streamlit.py:331 | A clause already without surrounding whitespace is unchanged by `strip()`. |
| Text.Split | Sql_Integration/streamlit.py:356 | `split(',')` returns at least one piece, and no piece contains a comma. |
| Text.JoinSplit | Sql_Integration/streamlit.py:356 | Re-joining the pieces of `split(',')` with commas gives back the clause, so no character is lost or reordered. |
| Text.SplitJoin | Sql_Integration/streamlit.py:356 | Splitting comma-free pieces joined by commas gives back exactly those pieces, in order. |
| Text.Remove | Sql_Integration/streamlit.py:357 | ``replace('`', '')`` leaves no backtick, never lengthens the text, and leaves backtick-free text unchanged. |
| Text.RemoveLength | Sql_Integration/streamlit.py:357 | The result is shorter by exactly the number of backticks in the input, so backticks are deleted and not replaced. |
| Text.RemoveConcat | Sql_Integration/streamlit.py:357 | Deleting backticks distributes over concatenation. |
| Text.NatToString | Sql_Integration/streamlit.py:373 | The numeral written for `i+1` is non-empty and made of decimal digits only, and it starts with `0` only for the number 0, so it has no leading zero as `str()` never writes one. |
| Text.ParseNatToString | Sql_Integration/streamlit.py:373 | Reading back the decimal numeral written for `i+1` gives `i+1`. |
| Text.NatToStringInjective | Sql_Integration/streamlit.py:373 | Different numbers are written as different numerals. |
| Text.SpanEndIsLongest | Sql_Integration/streamlit.py:328 | A greedy `\s+` or `\s*` run covers every whitespace stretch that starts where it starts. |
| Text.WordEndIsLongest | Sql_Integration/streamlit.py:336 | A greedy `\w+` run covers every word-character stretch that starts where it starts. |
| Patterns.CallsAreOpenings | Sql_Integration/streamlit.py:344-346 | The plain test and the call search use the same five names in the same order; the plain test looks for each name followed by `(`. |
| Patterns.LazyEnd | Sql_Integration/streamlit.py:328 | A lazy `(.*?)` ends at the first position from which the rest of the pattern matches. It never crosses a newline, and it reports no end when no such position exists. |
| Patterns.FindSelect | Sql_Integration/streamlit.py:328 | The `re.search` for the SELECT pattern; a match it reports has its group inside the query text. |
| Patterns.FindTable | Sql_Integration/streamlit.py:336 | The `re.search` for the FROM pattern; a match it reports has a non-empty group made only of word characters. |
| Patterns.FindCall | Sql_Integration/streamlit.py:346 | The `re.search` for the aggregate call; a match it reports names one of the five alternatives and its argument lies after the opening parenthesis. |
| Patterns.MentionsAggregate | Sql_Integration/streamlit.py:344 | The plain test on the lower-cased clause; it can only hold when the clause contains `(`. |
| Patterns.SelectFromIsFirst | Sql_Integration/streamlit.py:328 | The scan for `SELECT\s+(.*?)\s+FROM` (case-insensitive) from a position returns the first parse, in backtracking order, among parses starting there or later. It returns none when no parse exists. |
| Patterns.FindSelectIsLeftmost | Sql_Integration/streamlit.py:328 | The search finds nothing exactly when the SELECT pattern has no parse anywhere. Otherwise its group is that of the parse `re.search` picks. |
| Patterns.SelectGroupHasNoNewline | Sql_Integration/streamlit.py:328 | The projection group never spans a line break, because `.` excludes newline. |
| Patterns.TableAtIsFirst | Sql_Integration/streamlit.py:336 | At a fixed start, the FROM scan returns the parse a backtracking engine picks. That parse has the longest whitespace, an optional quote taken when present, and the longest word run. |
| Patterns.TableFromIsFirst | Sql_Integration/streamlit.py:336 | The scan for ``FROM\s+[`"]?(\w+)[`"]?`` from a position returns the first parse in backtracking order, or none when there is none. |
| Patterns.FindTableIsLeftmost | Sql_Integration/streamlit.py:336-337 | `match` is `None` exactly when no parse exists. Otherwise the table name is the group of the first parse. |
| Patterns.CallWithIsFirst | Sql_Integration/streamlit.py:346 | For one alternative at one start, the aggregate scan returns the parse with the longest leading `\s*` and the shortest lazy argument group followed by `\s*\)`. |
| Patterns.CallAtIsFirst | Sql_Integration/streamlit.py:346 | At one start, alternatives are tried in the written order count, sum, avg, min, max. |
| Patterns.AlternativeSkip | Sql_Integration/streamlit.py:346 | An alternative of `(count\|sum\|avg\|min\|max)` that has no parse at a position leaves the first parse there unchanged. |
| Patterns.CallFromIsFirst | Sql_Integration/streamlit.py:346 | The scan for the case-insensitive aggregate call pattern from a position returns the first parse in backtracking order, or none. |
| Patterns.FindCallIsLeftmost | Sql_Integration/streamlit.py:346-347 | `agg_pattern` is `None` exactly when no parse exists. Otherwise it is the parse `re.search` picks. |
| Patterns.OpensFromIff | Sql_Integration/streamlit.py:344 | The scan for a call opening from a position succeeds exactly when one of `count(`, `sum(`, `avg(`, `min(`, `max(` occurs literally at or after it. |
| Patterns.MentionsAggregateIff | Sql_Integration/streamlit.py:344 | The plain test on the lower-cased clause holds exactly when the lower-cased clause contains one of the five call openings. |
| Patterns.NoParenNoAggregate | Sql_Integration/streamlit.py:344 | A clause without `(` never takes the aggregate branch. |
| Patterns.CallOpensWhereCalled | Sql_Integration/streamlit.py:344-346 | A case-insensitive aggregate call is a literal call opening in the lower-cased clause. |
| Patterns.CallMatchMentionsAggregate | Sql_Integration/streamlit.py:344-347 | Whenever the aggregate search would match, the plain test at line 344 holds too. |
| Labels.ProjectionClause | Sql_Integration/streamlit.py:328-331 | The clause taken from the SELECT match has no surrounding whitespace. |
| Labels.TableName | Sql_Integration/streamlit.py:336-337 | A table name found after FROM is non-empty and made only of word characters. |
| Labels.AggregateNamesAreUpper | Sql_Integration/streamlit.py:348-351 | The label for the n-th alternative is `func_name.upper()` of that alternative. |
| Labels.CallLabel | Sql_Integration/streamlit.py:348-353 | The aggregate label starts with the upper-cased function name as written in the clause, and it is that name alone exactly when the argument is `*`. |
| Labels.ClauseCandidates | Sql_Integration/streamlit.py:333-357 | The case analysis on the clause. It raises exactly when the clause is `*`, a table is named and its lookup raises. An aggregate clause gives at most one candidate, and any other clause one candidate per comma piece. |
| Labels.Candidates | Sql_Integration/streamlit.py:325-357 | The candidates read from the query text. They fail exactly when the wildcard lookup raises, and they are empty when the SELECT pattern does not match. |
| Labels.MatchedNameUpper | Sql_Integration/streamlit.py:351 | `func_name.upper()` of any case-insensitive spelling of an aggregate is the canonical upper-case name. |
| Labels.CallLabelIsCanonical | Sql_Integration/streamlit.py:348-353 | An aggregate call with a `*` argument is labelled `FUNC`. Any other argument gives `FUNC_arg`, with the argument verbatim. |
| Labels.ListLabels | Sql_Integration/streamlit.py:355-357 | The list case yields one label per comma piece, and no label contains a backtick. |
| Labels.QuotedPieceLabel | Sql_Integration/streamlit.py:357 | A piece made of whitespace and a backticked name is labelled with the bare name. |
| Labels.QuotedListLabels | Sql_Integration/streamlit.py:355-357 | A SELECT list of backticked column names, as the prompt's examples produce, is labelled with exactly those names in order. |
| Labels.PrefixedQuotedLabel | Sql_Integration/streamlit.py:355-357 | A single piece made of a leading word and a backticked name keeps the word in its label. |
| Labels.Positional | Sql_Integration/streamlit.py:373 | The fallback gives `n` labels, and label `k` is `column_` followed by the numeral of `k+1`. |
| Labels.PositionalNamesPosition | Sql_Integration/streamlit.py:373 | Each positional label reads back as its own 1-based column position. |
| Labels.PositionalDistinct | Sql_Integration/streamlit.py:373 | No two positional labels are equal. |
| Labels.Reconcile | Sql_Integration/streamlit.py:360-378 | Exactly `n` labels are assigned. When the candidate list is non-empty and has at least `n` entries, the labels are its first `n` entries. Otherwise they are the first `n` schema columns of the FROM table when it has enough, or the positional names, including when the lookup raises. |
| Labels.ReconcileSources | Sql_Integration/streamlit.py:360-378 | Every assigned label is the candidate at its position, the schema column at its position, or its positional name. |
| Labels.LabelColumns | Sql_Integration/streamlit.py:325-378 | Inference either yields exactly `n` labels or fails. It fails exactly when the clause is `*`, a table is named, and the schema lookup for it raises. |
| Labels.WildcardTakesSchema | Sql_Integration/streamlit.py:334-341 | For `SELECT *` with a successful lookup, the labels are the table's first `n` columns when it has enough, and the positional names otherwise. |
| Labels.AggregateCandidate | Sql_Integration/streamlit.py:344-353 | An aggregate clause contributes one candidate, the call's `FUNC` or `FUNC_arg` label, or none when no call is closed. |
| Labels.AggregateAmongOtherColumns | Sql_Integration/streamlit.py:344-378 | An aggregate next to other columns in a frame of width 2 or more gets the fallback labels: the table's leading schema columns or the positional names. |
| Labels.ListCandidates | Sql_Integration/streamlit.py:355-357 | Outside the wildcard and aggregate cases, the candidates are the comma-list labels. |
| Labels.ColumnListLabels | Sql_Integration/streamlit.py:355-361 | A list clause naming exactly as many columns as the frame has labels them with its own pieces, in order. |
| Labels.EnoughCandidates | Sql_Integration/streamlit.py:360-361 | Exactly `n` candidates for `n` columns, with `n` at least 1, become the labels unchanged. |
| Labels.Width | Sql_Integration/streamlit.py:321 | The frame has as many columns as its widest row: no row is wider, and some row is that wide. |
| Labels.Present | Sql_Integration/streamlit.py:320-394 | A frame is shown with the rows unchanged and with one label per column when it is labelled. An empty frame keeps pandas' default header. Leaving aside lines 380-390, there is a processing error exactly when the query returned an error text, or when the frame is non-empty and the wildcard lookup raises. |
| Labels.EmptyFrameSkipsInference | Sql_Integration/streamlit.py:323 | An empty frame is shown the same way whatever the SQL text and the schema. |
| Labels.ShownFrameIsLabelled | Sql_Integration/streamlit.py:323-378 | A non-empty frame that is shown has one label per column, and every row fits under those labels. |
| Convert.WholeValue | Sql_Integration/sql.py:140 | `int(item)` of a decimal with no fractional part is an integer with the same value. |
| Convert.ConvertCell | Sql_Integration/sql.py:139-142 | A decimal whose `% 1` is defined becomes an integer of the same value when it is whole, and a non-whole number of the same value otherwise. A decimal of magnitude at least 10^28 raises DivisionImpossible. Every other cell is kept. |
| Convert.ConvertCellKeepsValue | Sql_Integration/sql.py:139-142 | A converted cell is never a decimal. It is numeric exactly when the input was, and it denotes the same number. |
| Convert.ConvertRow | Sql_Integration/sql.py:137-143 | A row converts exactly when every item does. It then keeps its arity, and each item is the conversion of the item at the same position. |
| Convert.ConvertRows | Sql_Integration/sql.py:136-145 | The result converts exactly when every row does. It then keeps the number of rows, and each row is the conversion of the row at the same position. |
| Convert.ConvertRowsFailsIff | Sql_Integration/sql.py:136-148 | The conversion fails exactly when some decimal cell is too large for `Decimal % 1`. |
| Convert.ConvertRowsIdempotent | Sql_Integration/sql.py:136-145 | Converting already converted rows changes nothing. |
| Convert.ExecuteAndConvert | Sql_Integration/sql.py:120-148 | An empty or `"[]"` result gives no rows. Every error text starts with `Error executing SQL: `. An error text comes back exactly when `db.run` or `eval` raises or a cell cannot be converted. Otherwise every row keeps its shape and holds the converted cells. |
| Scenarios.CountStarLabel | Sql_Integration/streamlit.py:344-361 | A query whose clause is `COUNT(*)` labels its single column `COUNT`. |
| Scenarios.StarQueryClause | Sql_Integration/streamlit.py:328-331 | The clause of ``SELECT * FROM `t_shirts`;`` is `*`. |
| Scenarios.StarQueryTable | Sql_Integration/streamlit.py:336-337 | The table name found in ``SELECT * FROM `t_shirts`;`` is `t_shirts`, without the backticks. |
| Scenarios.StarQueryLabels | Sql_Integration/streamlit.py:334-341 | ``SELECT * FROM `t_shirts`;`` takes its labels from the schema of `t_shirts`. |
| Scenarios.DistinctColumnLabel | Sql_Integration/streamlit.py:355-361 | A query with clause ``DISTINCT `color` ``, as in the prompt's Puma example, labels its column `DISTINCT color`. The keyword is kept. |

## Left out

- Unicode beyond ASCII in `\w`, `lower()`, `upper()` and IGNORECASE. Non-ASCII letters and digits are not word characters here. The special case pairs (ſ/s, ı/i, the Kelvin sign/k) are not folded. `\s` and `strip()` do use Python's full whitespace set.
- Convert.ConvertCell: `float(item)` is kept as the exact fraction. IEEE-754 rounding to the nearest double is not modelled. In particular a decimal too small for a double, such as `1E-400`, becomes `0.0`, while the model keeps a non-whole value. Overflow cannot arise, since only magnitudes below 10^28 reach `float(item)`.
- Convert.ConvertCell: only finite decimals are modelled. The URI in `DATABASE_URI` can name any SQLAlchemy database, and a PostgreSQL `numeric` column can hold the special values, though a MySQL `DECIMAL` cannot. For a quiet `NaN`, `item % 1` is `NaN`, the test `== 0` is false, and the cell becomes `float('nan')`. For `Infinity`, `-Infinity` and `sNaN`, `item % 1` raises InvalidOperation, and the whole call returns an error text. The sign of a negative zero is not tracked; `-0` becomes the integer 0 in the source as in the model.
- Convert.ConvertCell: the remainder `item % 1` is rounded in the default context, whose smallest exponent is -1000026 (Emin minus precision plus one). So when the fractional part of a decimal is nonzero but at most 5E-1000027 in magnitude, as in `1 + 1E-1000030`, the remainder underflows to zero. The source then appends `int(item)`, the integer part, while the model gives a non-whole number of the same value. No database column type stores such a value.
- Convert.ExecuteAndConvert: `db.run` and `eval` are parameters. The printed form of the rows and the parser are not modelled, and neither is what `eval` might execute.
- Convert.ExecuteAndConvert: the error text after the prefix is the message of the exception. Only the DivisionImpossible message of `Decimal % 1` is spelled out. Driver and parser messages are opaque strings.
- Labels.Present: the frame only carries the rows, the width and the header. pandas fills the padding of short rows with missing values, and the dtypes it infers are not modelled.
- Labels.Present: exceptions raised by lines 380-390 inside the same `try` are not modelled. For example, `st.dataframe` refuses duplicate column names, such as those of `SELECT a, a FROM t`, while the model shows that frame.
- Labels.Present: the processing-error message for a string result is pandas' constructor message. `st.write(result)`, `st.error` and the outer `except` of line 396 are display effects and are left out.
- `st.dataframe`, the CSV download, the record-count line and the rest of the page (`streamlit.py` outside lines 320-394) are UI output.
- The language-model call (`get_gemini_response`), the prompt text, database connection setup and `get_table_count` are external services or static data. Only the result of `get_columns_for_table` enters the model, as the `Schema` parameter.
- The `print` of the caught lookup error at `streamlit.py:375` is console output. Its label effect, the positional fallback, is modelled.

=== FILE: convert.dfy ===
/**
 * The conversion step of execute_sql_and_convert in Sql_Integration/sql.py:
 * the rows a query returned, with every exact-decimal cell turned into an
 * integer when it has no fractional part and into a float otherwise, or the
 * text "Error executing SQL: ..." when anything on the way raises.
 */
module Convert {
  import opened Results

  /** A finite Python Decimal: the value coef × 10^exp. */
  datatype Decimal = Decimal(coef: int, exp: int)

  /** An exact fraction num / den; every one built here has den > 0. */
  datatype Rational = Rational(num: int, den: int)

  /**
   * A value in a result row. A float is kept as the exact rational it was
   * converted from, without IEEE rounding.
   */
  datatype Cell = Dec(d: Decimal) | IntV(i: int) | FloatV(q: Rational) | Str(s: string) | Null

  type Row = seq<Cell>

  /** What execute_sql_and_convert returns: a list of row tuples, or an error text. */
  datatype Response = Rows(rows: seq<Row>) | ErrorText(text: string)

  const ErrorPrefix: string := "Error executing SQL: "

  /** The digits of the default decimal context (decimal.getcontext().prec). */
  const Precision: nat := 28

  /** str() of the InvalidOperation that Decimal % 1 raises when the integer part is too long. */
  const DivisionImpossible: string := "[<class 'decimal.DivisionImpossible'>]"

  function Pow10(k: nat): (r: nat)
    ensures r >= 1
  {
    if k == 0 then 1 else 10 * Pow10(k - 1)
  }

  function Abs(x: int): nat {
    if x < 0 then -x else x
  }

  /** The exact value of a decimal as a fraction with a positive denominator. */
  function DecimalValue(d: Decimal): (q: Rational)
    ensures q.den >= 1
  {
    if d.exp >= 0 then Rational(d.coef * Pow10(d.exp), 1) else Rational(d.coef, Pow10(-d.exp))
  }

  /** Two fractions with positive denominators denote the same number. */
  predicate SameValue(q: Rational, r: Rational) {
    q.num * r.den == r.num * q.den
  }

  /** The fraction denotes a whole number. */
  predicate IsWhole(q: Rational)
    requires q.den >= 1
  {
    q.num % q.den == 0
  }

  /**
   * item % 1 can be computed: the integer part of the decimal has at most
   * Precision digits, i.e. |item| < 10^Precision. Otherwise the default
   * context signals DivisionImpossible, which raises.
   */
  predicate RemainderFits(d: Decimal) {
    var q := DecimalValue(d);
    Abs(q.num) < Pow10(Precision) * q.den
  }

  /** item % 1 == 0 for a decimal whose remainder can be computed. */
  predicate HasZeroFraction(d: Decimal) {
    IsWhole(DecimalValue(d))
  }

  /** int(item) for a decimal with no fractional part. */
  function WholeValue(d: Decimal): (k: int)
    requires HasZeroFraction(d)
    ensures SameValue(Rational(k, 1), DecimalValue(d))
  {
    var q := DecimalValue(d);
    q.num / q.den
  }

  /** The numeric value a cell carries, if it is a number. */
  function NumericValue(c: Cell): Option<Rational> {
    match c
    case Dec(d) => Some(DecimalValue(d))
    case IntV(i) => Some(Rational(i, 1))
    case FloatV(q) => Some(q)
    case Str(_) => None
    case Null => None
  }

  /** The per-item step of the conversion loop (sql.py lines 139-142). */
  function ConvertCell(c: Cell): (r: Result<Cell, string>)
    ensures c.Dec? && !RemainderFits(c.d) ==> r == Failure(DivisionImpossible)
    ensures c.Dec? && RemainderFits(c.d) && HasZeroFraction(c.d) ==>
              r.Success? && r.value.IntV? && SameValue(Rational(r.value.i, 1), DecimalValue(c.d))
    ensures c.Dec? && RemainderFits(c.d) && !HasZeroFraction(c.d) ==>
              r.Success? && r.value.FloatV? && r.value.q.den >= 1
              && SameValue(r.value.q, DecimalValue(c.d)) && !IsWhole(r.value.q)
    ensures !c.Dec? ==> r == Success(c)
  {
    match c
    case Dec(d) =>
      if !RemainderFits(d) then Failure(DivisionImpossible)
      else if HasZeroFraction(d) then Success(IntV(WholeValue(d)))
      else Success(FloatV(DecimalValue(d)))
    case _ => Success(c)
  }

  /** A converted cell is never a decimal and denotes the number it was converted from. */
  lemma ConvertCellKeepsValue(c: Cell)
    requires ConvertCell(c).Success?
    ensures !ConvertCell(c).value.Dec?
    ensures NumericValue(c).Some? <==> NumericValue(ConvertCell(c).value).Some?
    ensures NumericValue(c).Some? ==>
              SameValue(NumericValue(c).value, NumericValue(ConvertCell(c).value).value)
  {
  }

  /** One row tuple: every item converted in order; the first item that raises aborts it. */
  function ConvertRow(row: Row): (r: Result<Row, string>)
    ensures r.Success? <==> forall k :: 0 <= k < |row| ==> ConvertCell(row[k]).Success?
    ensures r.Success? ==> |r.value| == |row|
                           && forall k :: 0 <= k < |row| ==> ConvertCell(row[k]) == Success(r.value[k])
  {
    if row == [] then Success([])
    else
      match ConvertCell(row[0])
      case Failure(e) => Failure(e)
      case Success(c) =>
        match ConvertRow(row[1..])
        case Failure(e) => Failure(e)
        case Success(rest) => Success([c] + rest)
  }

  /** Every row converted in order; the first item that raises aborts the whole result. */
  function ConvertRows(rows: seq<Row>): (r: Result<seq<Row>, string>)
    ensures r.Success? <==> forall k :: 0 <= k < |rows| ==> ConvertRow(rows[k]).Success?
    ensures r.Success? ==> |r.value| == |rows|
                           && forall k :: 0 <= k < |rows| ==> ConvertRow(rows[k]) == Success(r.value[k])
  {
    if rows == [] then Success([])
    else
      match ConvertRow(rows[0])
      case Failure(e) => Failure(e)
      case Success(row) =>
        match ConvertRows(rows[1..])
        case Failure(e) => Failure(e)
        case Success(rest) => Success([row] + rest)
  }

  /** The conversion fails exactly when some decimal item is too large for Decimal % 1. */
  lemma ConvertRowsFailsIff(rows: seq<Row>)
    ensures ConvertRows(rows).Failure? <==>
              exists k, j :: 0 <= k < |rows| && 0 <= j < |rows[k]|
                             && rows[k][j].Dec? && !RemainderFits(rows[k][j].d)
  {
    if ConvertRows(rows).Failure? {
      var k :| 0 <= k < |rows| && ConvertRow(rows[k]).Failure?;
      var j :| 0 <= j < |rows[k]| && ConvertCell(rows[k][j]).Failure?;
    }
  }

  /** A row with no decimal left in it is its own conversion. */
  lemma {:induction false} ConvertRowOfConverted(row: Row)
    requires forall k :: 0 <= k < |row| ==> !row[k].Dec?
    ensures ConvertRow(row) == Success(row)
  {
    if row != [] {
      ConvertRowOfConverted(row[1..]);
      assert row == [row[0]] + row[1..];
    }
  }

  /** Converting the converted rows again changes nothing. */
  lemma {:induction false} ConvertRowsIdempotent(rows: seq<Row>)
    requires ConvertRows(rows).Success?
    ensures ConvertRows(ConvertRows(rows).value) == ConvertRows(rows)
  {
    var out := ConvertRows(rows).value;
    forall k | 0 <= k < |out| ensures ConvertRow(out[k]) == Success(out[k]) {
      var row := rows[k];
      forall j | 0 <= j < |out[k]| ensures !out[k][j].Dec? {
        ConvertCellKeepsValue(row[j]);
      }
      ConvertRowOfConverted(out[k]);
    }
    ConvertRowsOfConverted(out);
  }

  /** A result whose every row is its own conversion is its own conversion. */
  lemma {:induction false} ConvertRowsOfConverted(rows: seq<Row>)
    requires forall k :: 0 <= k < |rows| ==> ConvertRow(rows[k]) == Success(rows[k])
    ensures ConvertRows(rows) == Success(rows)
  {
    if rows != [] {
      ConvertRowsOfConverted(rows[1..]);
      assert rows == [rows[0]] + rows[1..];
    }
  }

  /**
   * execute_sql_and_convert. run is what db.run(sql_query) returned or the
   * message of what it raised; parse stands for eval() of the returned text.
   */
  function ExecuteAndConvert(run: Result<string, string>, parse: string -> Result<seq<Row>, string>): (r: Response)
    ensures run.Success? && (run.value == "" || run.value == "[]") ==> r == Rows([])
    ensures r.ErrorText? ==> |r.text| >= |ErrorPrefix| && r.text[..|ErrorPrefix|] == ErrorPrefix
    ensures r.ErrorText? <==>
              run.Failure?
              || (run.value != "" && run.value != "[]"
                  && (parse(run.value).Failure? || ConvertRows(parse(run.value).value).Failure?))
    ensures r.Rows? && run.Success? && run.value != "" && run.value != "[]" ==>
              var rows := parse(run.value).value;
              |r.rows| == |rows|
              && forall k :: 0 <= k < |rows| ==>
                   |r.rows[k]| == |rows[k]|
                   && forall j :: 0 <= j < |rows[k]| ==> ConvertCell(rows[k][j]) == Success(r.rows[k][j])
  {
    match run
    case Failure(e) => ErrorText(ErrorPrefix + e)
    case Success(raw) =>
      if raw == "" || raw == "[]" then Rows([])
      else
        match parse(raw)
        case Failure(e) => ErrorText(ErrorPrefix + e)
        case Success(rows) =>
          match ConvertRows(rows)
          case Failure(e) => ErrorText(ErrorPrefix + e)
          case Success(out) => Rows(out)
  }
}

=== FILE: labels.dfy ===
/**
 * The column-label block of Sql_Integration/streamlit.py: the query result
 * becomes a data frame, and when the frame is not empty its column labels are
 * guessed from the generated SQL text (the SELECT list, a wildcard resolved
 * through the table schema, or a single aggregate call) and then reconciled
 * with the number of columns, falling back to the schema and finally to
 * column_1 .. column_n.
 */
module Labels {
  import opened Results
  import opened Text
  import opened Patterns
  import opened Convert

  /** get_columns_for_table: the column names of a table, or the message of what it raised. */
  type Schema = string -> Result<seq<string>, string>

  /** The labels of the aggregate alternatives after .upper(). */
  const AggregateNames: seq<string> := ["COUNT", "SUM", "AVG", "MIN", "MAX"]

  /** AggregateNames is Aggregates upper-cased, entry for entry. */
  lemma AggregateNamesAreUpper()
    ensures |AggregateNames| == |Aggregates|
    ensures forall j :: 0 <= j < |Aggregates| ==> AggregateNames[j] == UpperAll(Aggregates[j])
  {
  }

  const PositionalPrefix: string := "column_"

  /** select_pattern.group(1).strip(): the projection clause, if the SELECT pattern matches. */
  function ProjectionClause(sql: string): (r: Option<string>)
    ensures r.Some? ==> r.value == [] || (!IsSpace(r.value[0]) && !IsSpace(r.value[|r.value| - 1]))
  {
    match FindSelect(sql)
    case None => None
    case Some(m) => Some(Strip(sql[m.lo..m.hi]))
  }

  /** match.group(1) of the FROM pattern: the first table name after FROM. */
  function TableName(sql: string): (r: Option<string>)
    ensures r.Some? ==> |r.value| > 0 && forall k :: 0 <= k < |r.value| ==> IsWordChar(r.value[k])
  {
    match FindTable(sql)
    case None => None
    case Some(m) =>
      var name := sql[m.lo..m.hi];
      assert forall k :: 0 <= k < |name| ==> name[k] == sql[m.lo + k];
      Some(name)
  }

  /** The single label of an aggregate call: FUNC for FUNC(*), FUNC_arg otherwise. */
  function CallLabel(clause: string, m: CallSpan): (r: string)
    requires WellPlaced(clause, m)
    ensures |Aggregates[m.fn]| <= |r|
    ensures r[..|Aggregates[m.fn]|] == UpperAll(clause[m.start..m.start + |Aggregates[m.fn]|])
    ensures |r| == |Aggregates[m.fn]| <==> clause[m.lo..m.hi] == "*"
  {
    var name := UpperAll(clause[m.start..m.start + |Aggregates[m.fn]|]);
    var arg := clause[m.lo..m.hi];
    if arg == "*" then name else name + "_" + arg
  }

  /** Upper-casing a case-insensitive match of an aggregate name gives the canonical upper-case name. */
  lemma MatchedNameUpper(clause: string, i: nat, j: nat)
    requires j < |Aggregates| && CiAt(clause, i, Aggregates[j])
    ensures UpperAll(clause[i..i + |Aggregates[j]|]) == AggregateNames[j]
  {
    var f := Aggregates[j];
    var u := UpperAll(clause[i..i + |f|]);
    forall k | 0 <= k < |f| ensures u[k] == AggregateNames[j][k] {
      assert Lower(clause[i + k]) == f[k];
    }
  }

  /** An aggregate call yields FUNC for a * argument and FUNC_arg, with arg verbatim, for any other. */
  lemma CallLabelIsCanonical(clause: string)
    requires FindCall(clause).Some?
    ensures var m := FindCall(clause).value;
            var arg := clause[m.lo..m.hi];
            CallLabel(clause, m) == if arg == "*" then AggregateNames[m.fn] else AggregateNames[m.fn] + "_" + arg
  {
    var m := FindCall(clause).value;
    FindCallIsLeftmost(clause);
    var t :| CallParse(clause, m.start, m.fn, m.lo, m.hi, t);
    MatchedNameUpper(clause, m.start, m.fn);
  }

  /** The comma-list labels: every piece of the clause, stripped, with its backticks removed. */
  function ListLabels(clause: string): (r: seq<string>)
    ensures |r| == |Split(clause)| >= 1
    ensures forall k :: 0 <= k < |r| ==> '`' !in r[k]
  {
    var pieces := Split(clause);
    seq(|pieces|, k requires 0 <= k < |pieces| => Remove(Strip(pieces[k]), '`'))
  }

  /** The candidate labels for a projection clause (streamlit.py lines 333-357). */
  function ClauseCandidates(sql: string, clause: string, schema: Schema): (r: Result<seq<string>, string>)
    ensures r.Failure? <==> clause == "*" && TableName(sql).Some? && schema(TableName(sql).value).Failure?
    ensures clause != "*" && MentionsAggregate(clause) ==> r.Success? && |r.value| <= 1
    ensures clause != "*" && !MentionsAggregate(clause) ==> r.Success? && |r.value| == |Split(clause)|
  {
    if clause == "*" then
      match TableName(sql)
      case None => Success([])
      case Some(table) => schema(table)
    else if MentionsAggregate(clause) then
      match FindCall(clause)
      case None => Success([])
      case Some(m) => Success([CallLabel(clause, m)])
    else Success(ListLabels(clause))
  }

  /** The candidate labels read from the SQL text (streamlit.py lines 325-357). */
  function Candidates(sql: string, schema: Schema): (r: Result<seq<string>, string>)
    ensures r.Failure? <==> WildcardLookupFails(sql, schema)
    ensures ProjectionClause(sql).None? ==> r == Success([])
  {
    match ProjectionClause(sql)
    case None => Success([])
    case Some(clause) => ClauseCandidates(sql, clause, schema)
  }

  /** column_1, ..., column_n. */
  function Positional(n: nat): (r: seq<string>)
    ensures |r| == n
    ensures forall k :: 0 <= k < n ==> r[k] == PositionalPrefix + NatToString(k + 1)
  {
    seq(n, k requires 0 <= k < n => PositionalPrefix + NatToString(k + 1))
  }

  /** Every positional label names its own column: reading the number back gives its 1-based position. */
  lemma PositionalNamesPosition(n: nat, k: nat)
    requires k < n
    ensures var lbl := Positional(n)[k];
            (|lbl| > |PositionalPrefix| && lbl[..|PositionalPrefix|] == PositionalPrefix
             && ParseNat(lbl[|PositionalPrefix|..]) == k + 1)
  {
    var lbl := Positional(n)[k];
    assert lbl[|PositionalPrefix|..] == NatToString(k + 1);
    ParseNatToString(k + 1);
  }

  /** No two positional labels are equal. */
  lemma PositionalDistinct(n: nat)
    ensures forall a, b :: 0 <= a < b < n ==> Positional(n)[a] != Positional(n)[b]
  {
    forall a, b | 0 <= a < b < n ensures Positional(n)[a] != Positional(n)[b] {
      if Positional(n)[a] == Positional(n)[b] {
        assert NatToString(a + 1) == Positional(n)[a][|PositionalPrefix|..];
        assert NatToString(b + 1) == Positional(n)[b][|PositionalPrefix|..];
        NatToStringInjective(a + 1, b + 1);
      }
    }
  }

  /**
   * The labels assigned to a frame of n columns given the candidates
   * (streamlit.py lines 360-378). The schema is consulted again only when the
   * candidates are too few; whatever it raises here is caught.
   */
  function Reconcile(sql: string, cands: seq<string>, n: nat, schema: Schema): (r: seq<string>)
    ensures |r| == n
    ensures |cands| > 0 && |cands| >= n ==> r == cands[..n]
    ensures !(|cands| > 0 && |cands| >= n) ==>
              match TableName(sql)
              case None => r == Positional(n)
              case Some(table) =>
                match schema(table)
                case Failure(_) => r == Positional(n)
                case Success(cols) => r == if |cols| > 0 && |cols| >= n then cols[..n] else Positional(n)
  {
    if |cands| > 0 && |cands| >= n then cands[..n]
    else
      match TableName(sql)
      case None => Positional(n)
      case Some(table) =>
        match schema(table)
        case Failure(_) => Positional(n)
        case Success(cols) => if |cols| > 0 && |cols| >= n then cols[..n] else Positional(n)
  }

  /** Every label comes from the candidates, from the schema of the FROM table, or is the positional one. */
  lemma ReconcileSources(sql: string, cands: seq<string>, n: nat, schema: Schema, k: nat)
    requires k < n
    ensures var r := Reconcile(sql, cands, n, schema);
            r[k] == Positional(n)[k]
            || (k < |cands| && r[k] == cands[k])
            || (TableName(sql).Some? && schema(TableName(sql).value).Success?
                && k < |schema(TableName(sql).value).value|
                && r[k] == schema(TableName(sql).value).value[k])
  {
  }

  /** The wildcard lookup raised: SELECT * whose FROM table the schema could not describe. */
  predicate WildcardLookupFails(sql: string, schema: Schema) {
    ProjectionClause(sql) == Some("*") && TableName(sql).Some? && schema(TableName(sql).value).Failure?
  }

  /** Label inference and reconciliation for a non-empty frame of n columns. */
  function LabelColumns(sql: string, n: nat, schema: Schema): (r: Result<seq<string>, string>)
    ensures r.Success? ==> |r.value| == n
    ensures r.Failure? <==> WildcardLookupFails(sql, schema)
  {
    match Candidates(sql, schema)
    case Failure(e) => Failure(e)
    case Success(cands) => Success(Reconcile(sql, cands, n, schema))
  }

  /** A SELECT * resolves its labels from the schema of the first table after FROM. */
  lemma WildcardTakesSchema(sql: string, n: nat, schema: Schema)
    requires ProjectionClause(sql) == Some("*") && TableName(sql).Some?
    requires schema(TableName(sql).value).Success?
    ensures var cols := schema(TableName(sql).value).value;
            LabelColumns(sql, n, schema)
            == Success(if |cols| > 0 && |cols| >= n then cols[..n] else Positional(n))
  {
  }

  /** An aggregate clause yields one candidate, the call's label, or none when the call is not closed. */
  lemma AggregateCandidate(sql: string, schema: Schema)
    requires ProjectionClause(sql).Some? && ProjectionClause(sql).value != "*"
    requires MentionsAggregate(ProjectionClause(sql).value)
    ensures var clause := ProjectionClause(sql).value;
            match FindCall(clause)
            case None => Candidates(sql, schema) == Success([])
            case Some(m) =>
              var arg := clause[m.lo..m.hi];
              Candidates(sql, schema)
              == Success([if arg == "*" then AggregateNames[m.fn] else AggregateNames[m.fn] + "_" + arg])
  {
    var clause := ProjectionClause(sql).value;
    if FindCall(clause).Some? {
      CallLabelIsCanonical(clause);
    }
  }

  /**
   * An aggregate next to other columns (SELECT brand, COUNT(*) ...) yields a
   * single candidate for a wider frame, so the labels are the ones the
   * fallback gives with no candidates at all: the FROM table's leading schema
   * columns or the positional names.
   */
  lemma AggregateAmongOtherColumns(sql: string, n: nat, schema: Schema)
    requires ProjectionClause(sql).Some? && ProjectionClause(sql).value != "*"
    requires MentionsAggregate(ProjectionClause(sql).value) && n >= 2
    ensures LabelColumns(sql, n, schema) == Success(Reconcile(sql, [], n, schema))
  {
    var clause := ProjectionClause(sql).value;
    var cands := ClauseCandidates(sql, clause, schema);
    assert Candidates(sql, schema) == cands;
    assert cands.Success? && |cands.value| <= 1 by {
      match FindCall(clause)
      case None =>
      case Some(m) =>
    }
  }

  /** Outside the wildcard and aggregate cases the candidates are the comma-list labels. */
  lemma ListCandidates(sql: string, schema: Schema)
    requires ProjectionClause(sql).Some? && ProjectionClause(sql).value != "*"
    requires !MentionsAggregate(ProjectionClause(sql).value)
    ensures Candidates(sql, schema) == Success(ListLabels(ProjectionClause(sql).value))
  {
  }

  /** An ordinary clause naming exactly n columns labels them with its own pieces, in order. */
  lemma ColumnListLabels(sql: string, n: nat, schema: Schema)
    requires ProjectionClause(sql).Some? && ProjectionClause(sql).value != "*"
    requires !MentionsAggregate(ProjectionClause(sql).value)
    requires |ListLabels(ProjectionClause(sql).value)| == n
    ensures LabelColumns(sql, n, schema) == Success(ListLabels(ProjectionClause(sql).value))
  {
    var labels := ListLabels(ProjectionClause(sql).value);
    ListCandidates(sql, schema);
    EnoughCandidates(sql, labels, n, schema);
  }

  /**
   * A single piece made of a leading word and a backticked name keeps the
   * word: SELECT DISTINCT `color` is labelled "DISTINCT color".
   */
  lemma PrefixedQuotedLabel(word: string, name: string)
    requires |word| > 0 && !IsSpace(word[0])
    requires '`' !in word && ',' !in word
    requires '`' !in name && ',' !in name
    ensures ListLabels(word + " `" + name + "`") == [word + " " + name]
  {
    var quoted := "`" + name + "`";
    var s := word + " " + quoted;
    assert word + " `" + name + "`" == s;
    assert ',' !in quoted && '`' !in word + " ";
    assert ',' !in s;
    assert Split(s) == [s];
    StripKeepsTrimmed(s);
    RemoveConcat(word + " ", quoted, '`');
    QuotedNameLabel(name);
  }

  /** Deleting the backticks around a name gives the name. */
  lemma QuotedNameLabel(name: string)
    requires '`' !in name
    ensures Remove("`" + name + "`", '`') == name
  {
    assert "`" + name + "`" == "`" + (name + "`");
    RemoveConcat("`", name + "`", '`');
    assert Remove("`", '`') == [];
    RemoveConcat(name, "`", '`');
    assert Remove("`", '`') + [] == [];
    assert Remove(name + "`", '`') == name;
  }

  lemma EnoughCandidates(sql: string, cands: seq<string>, n: nat, schema: Schema)
    requires Candidates(sql, schema) == Success(cands) && |cands| == n >= 1
    ensures LabelColumns(sql, n, schema) == Success(cands)
  {
    assert cands[..n] == cands;
  }

  /** A column name in backticks, after some whitespace, as one piece of a SELECT list. */
  function QuotedPiece(pad: string, name: string): string {
    pad + "`" + name + "`"
  }

  /** A piece made of whitespace, a backticked name and nothing else labels the bare name. */
  lemma QuotedPieceLabel(pad: string, name: string)
    requires forall k :: 0 <= k < |pad| ==> IsSpace(pad[k])
    requires '`' !in name
    ensures Remove(Strip(QuotedPiece(pad, name)), '`') == name
  {
    var core := "`" + name + "`";
    assert QuotedPiece(pad, name) == pad + core + [];
    StripPadded(pad, core, []);
    QuotedNameLabel(name);
  }

  /** A SELECT list of backticked column names is labelled with exactly those names. */
  lemma QuotedListLabels(pads: seq<string>, names: seq<string>)
    requires |pads| == |names| >= 1
    requires forall k :: 0 <= k < |pads| ==> forall j :: 0 <= j < |pads[k]| ==> IsSpace(pads[k][j])
    requires forall k :: 0 <= k < |names| ==> '`' !in names[k] && ',' !in names[k]
    ensures ListLabels(Join(seq(|names|, k requires 0 <= k < |names| => QuotedPiece(pads[k], names[k])))) == names
  {
    var pieces := seq(|names|, k requires 0 <= k < |names| => QuotedPiece(pads[k], names[k]));
    forall k | 0 <= k < |pieces| ensures ',' !in pieces[k] {
      var p := pieces[k];
      forall j | 0 <= j < |pads[k]| ensures pads[k][j] != ',' {
        assert IsSpace(pads[k][j]);
      }
      assert p == pads[k] + "`" + names[k] + "`";
      assert ',' !in pads[k];
    }
    SplitJoin(pieces);
    forall k | 0 <= k < |names| ensures ListLabels(Join(pieces))[k] == names[k] {
      QuotedPieceLabel(pads[k], names[k]);
    }
  }

  /** How the page shows the columns of the frame: pandas' default 0..n-1, or assigned names. */
  datatype Header = RangeIndex | Named(names: seq<string>)

  /** pd.DataFrame(result) with its header: ragged rows are padded up to the widest. */
  datatype Frame = Frame(rows: seq<Row>, width: nat, header: Header)

  /** What the result section shows: the frame, or the error caught around it. */
  datatype Display = Shown(frame: Frame) | ProcessingError(message: string)

  const ProcessingPrefix: string := "Error processing data: "

  /** pandas' message when DataFrame() is given a plain string. */
  const NotAFrame: string := "DataFrame constructor not properly called!"

  /** The number of columns of pd.DataFrame(rows): the arity of the widest row. */
  function Width(rows: seq<Row>): (w: nat)
    ensures forall k :: 0 <= k < |rows| ==> |rows[k]| <= w
    ensures rows == [] ==> w == 0
    ensures rows != [] ==> exists k :: 0 <= k < |rows| && |rows[k]| == w
  {
    if rows == [] then 0
    else
      var w := Width(rows[1..]);
      if |rows[0]| >= w then |rows[0]| else w
  }

  /** df.empty: no rows or no columns. */
  predicate IsEmptyFrame(rows: seq<Row>) {
    |rows| == 0 || Width(rows) == 0
  }

  /** The data-frame part of the page (streamlit.py lines 320-378 and the handler at 392-394). */
  function Present(sql: string, result: Response, schema: Schema): (r: Display)
    ensures r.Shown? ==> result.Rows? && r.frame.rows == result.rows && r.frame.width == Width(result.rows)
    ensures r.Shown? && r.frame.header.Named? ==> |r.frame.header.names| == r.frame.width > 0
    ensures result.Rows? && IsEmptyFrame(result.rows) ==> r.Shown? && r.frame.header == RangeIndex
    ensures r.ProcessingError? <==>
              result.ErrorText? || (!IsEmptyFrame(result.rows) && WildcardLookupFails(sql, schema))
  {
    match result
    case ErrorText(_) => ProcessingError(ProcessingPrefix + NotAFrame)
    case Rows(rows) =>
      var n := Width(rows);
      if IsEmptyFrame(rows) then Shown(Frame(rows, n, RangeIndex))
      else
        match LabelColumns(sql, n, schema)
        case Failure(e) => ProcessingError(ProcessingPrefix + e)
        case Success(labels) => Shown(Frame(rows, n, Named(labels)))
  }

  /** An empty frame is shown without consulting the SQL text or the schema at all. */
  lemma EmptyFrameSkipsInference(sql: string, sql': string, rows: seq<Row>, schema: Schema, schema': Schema)
    requires IsEmptyFrame(rows)
    ensures Present(sql, Rows(rows), schema) == Present(sql', Rows(rows), schema')
  {
  }

  /** A non-empty frame that is shown gets exactly one label per column. */
  lemma ShownFrameIsLabelled(sql: string, rows: seq<Row>, schema: Schema)
    requires !IsEmptyFrame(rows) && Present(sql, Rows(rows), schema).Shown?
    ensures var f := Present(sql, Rows(rows), schema).frame;
            f.header.Named? && |f.header.names| == f.width
            && forall k :: 0 <= k < |rows| ==> |rows[k]| <= |f.header.names|
  {
  }
}

=== FILE: patterns.dfy ===
/**
 * The three regular-expression searches of the label inference in
 * Sql_Integration/streamlit.py, written as deterministic scanners over strings:
 *
 *   SELECT\s+(.*?)\s+FROM                       (case-insensitive)
 *   FROM\s+[`"]?(\w+)[`"]?                      (case-insensitive)
 *   (count|sum|avg|min|max)\(\s*(.*?)\s*\)      (case-insensitive)
 *
 * plus the plain test (count|sum|avg|min|max)\( on the lower-cased clause.
 *
 * For each pattern a ghost predicate lists every way the pattern can match
 * (a "parse", given by the positions where its pieces begin and end), and the
 * search result is characterised the way a backtracking engine picks it: the
 * leftmost start, then, piece by piece, greedy repetitions as long as
 * possible, lazy ones as short as possible, alternatives in written order.
 * Each scanner is proved to return exactly that first parse.
 */
module Patterns {
  import opened Results
  import opened Text

  const Select: string := "select"
  const From: string := "from"

  /** The alternatives of the aggregate group, in the order the regex tries them. */
  const Aggregates: seq<string> := ["count", "sum", "avg", "min", "max"]

  /** The same alternatives followed by the opening parenthesis, as the plain test looks for them. */
  const Calls: seq<string> := ["count(", "sum(", "avg(", "min(", "max("]

  /** Calls is Aggregates with the parenthesis appended, entry for entry, so the two lists cannot drift apart. */
  lemma CallsAreOpenings()
    ensures |Calls| == |Aggregates|
    ensures forall j :: 0 <= j < |Calls| ==> Calls[j] == Aggregates[j] + "("
  {
  }

  /*****************************************************************************
   * The lazy group (.*?) and what must follow it
   *****************************************************************************/

  /** What follows a lazy group: whitespace then the keyword FROM, or optional whitespace then ')'. */
  datatype Closer = FromKeyword | CloseParen

  /** The rest of the pattern matches from position e on (\s+FROM, or \s*\)). */
  predicate Closes(s: string, e: nat, c: Closer)
    requires e <= |s|
  {
    match c
    case FromKeyword => e < |s| && IsSpace(s[e]) && CiAt(s, SpanEnd(s, e), From)
    case CloseParen => SpanEnd(s, e) < |s| && s[SpanEnd(s, e)] == ')'
  }

  /**
   * The lazy group that starts at p: the first end position, from e on, at
   * which the rest of the pattern matches, never crossing a newline.
   */
  function LazyEnd(s: string, p: nat, e: nat, c: Closer): (r: Option<nat>)
    requires p <= e <= |s| && NoNewline(s, p, e)
    ensures r.Some? ==> e <= r.value <= |s| && NoNewline(s, p, r.value) && Closes(s, r.value, c)
                        && forall y :: e <= y < r.value ==> !Closes(s, y, c)
    ensures r.None? ==> forall y :: e <= y <= |s| && NoNewline(s, p, y) ==> !Closes(s, y, c)
    decreases |s| - e
  {
    if Closes(s, e, c) then Some(e)
    else if e == |s| || s[e] == '\n' then None
    else LazyEnd(s, p, e + 1, c)
  }

  /** A keyword that starts with a letter cannot start on whitespace. */
  lemma KeywordNotSpace(s: string, t: nat, w: string)
    requires CiAt(s, t, w) && |w| > 0 && 'a' <= w[0] <= 'z'
    ensures t < |s| && !IsSpace(s[t])
  {
    assert Lower(s[t + 0]) == w[0];
  }

  /** Whitespace followed by FROM can only be the whole whitespace run. */
  lemma FromTail(s: string, e: nat, t: nat)
    requires e < t && AllSpace(s, e, t) && CiAt(s, t, From)
    ensures Closes(s, e, FromKeyword) && t == SpanEnd(s, e)
  {
    SpanEndIsLongest(s, e, t);
    KeywordNotSpace(s, t, From);
  }

  /** Whitespace followed by ')' can only be the whole whitespace run. */
  lemma CloseTail(s: string, e: nat, t: nat)
    requires e <= t < |s| && AllSpace(s, e, t) && s[t] == ')'
    ensures Closes(s, e, CloseParen) && t == SpanEnd(s, e)
  {
    SpanEndIsLongest(s, e, t);
  }

  /*****************************************************************************
   * SELECT\s+(.*?)\s+FROM
   *****************************************************************************/

  /**
   * One way the SELECT pattern matches s: SELECT at i, whitespace up to p,
   * the group s[p..e] without newlines, whitespace from e up to t, FROM at t.
   */
  ghost predicate SelectParse(s: string, i: nat, p: nat, e: nat, t: nat) {
    CiAt(s, i, Select) && i + |Select| < p <= e < t
    && AllSpace(s, i + |Select|, p) && NoNewline(s, p, e)
    && AllSpace(s, e, t) && CiAt(s, t, From)
  }

  /** A match found at start, whose group is s[lo..hi]. */
  datatype Span = Span(start: nat, lo: nat, hi: nat)

  /** m is tried no later than the parse (i, p, e): leftmost, then longest \s+, then shortest group. */
  ghost predicate SelectPrecedes(m: Span, i: nat, p: nat, e: nat) {
    m.start < i || (m.start == i && (m.lo > p || (m.lo == p && m.hi <= e)))
  }

  /** m is a parse starting at i0 or later that precedes every parse starting at i0 or later. */
  ghost predicate SelectFirstFrom(s: string, i0: nat, m: Span) {
    i0 <= m.start
    && (exists t :: SelectParse(s, m.start, m.lo, m.hi, t))
    && forall i, p, e, t :: i0 <= i && SelectParse(s, i, p, e, t) ==> SelectPrecedes(m, i, p, e)
  }

  /** No parse starts at i0 or later. */
  ghost predicate NoSelectFrom(s: string, i0: nat) {
    forall i, p, e, t :: i0 <= i ==> !SelectParse(s, i, p, e, t)
  }

  /** m is the match re.search returns: a parse that precedes every other parse. */
  ghost predicate IsSelectMatch(s: string, m: Span) {
    SelectFirstFrom(s, 0, m)
  }

  /** The first parse of the SELECT pattern that starts at i. */
  function SelectAt(s: string, i: nat): (r: Option<Span>)
    ensures r.Some? ==> r.value.start == i && r.value.lo <= r.value.hi <= |s|
  {
    if !CiAt(s, i, Select) then None
    else
      var q := i + |Select|;
      var p := SpanEnd(s, q);
      if p == q then None
      else
        match LazyEnd(s, p, p, FromKeyword)
        case Some(e) => Some(Span(i, p, e))
        case None =>
          // \s+ gives back one character so that the group is empty and FROM follows
          if p - q >= 2 && CiAt(s, p, From) then Some(Span(i, p - 1, p - 1)) else None
  }

  lemma SelectAtIsFirst(s: string, i: nat)
    ensures SelectAt(s, i).None? ==> forall p, e, t :: !SelectParse(s, i, p, e, t)
    ensures SelectAt(s, i).Some? ==> SelectFirstFrom(s, i, SelectAt(s, i).value)
  {
    if CiAt(s, i, Select) {
      var q := i + |Select|;
      var P := SpanEnd(s, q);
      forall p: nat, e: nat, t: nat | SelectParse(s, i, p, e, t)
        ensures p <= P && Closes(s, e, FromKeyword) && t == SpanEnd(s, e)
      {
        SpanEndIsLongest(s, q, p);
        FromTail(s, e, t);
      }
      if P != q {
        match LazyEnd(s, P, P, FromKeyword)
        case Some(e) =>
          assert SelectParse(s, i, P, e, SpanEnd(s, e));
        case None =>
          forall p: nat, e: nat, t: nat | SelectParse(s, i, p, e, t)
            ensures p < P && e < P && P - q >= 2 && CiAt(s, P, From)
          {
            if e >= P {
              assert false;
            }
            SpanEndInside(s, q, e);
          }
          if P - q >= 2 && CiAt(s, P, From) {
            assert SelectParse(s, i, P - 1, P - 1, P);
          }
      }
    }
  }

  /** The first parse of the SELECT pattern that starts at i or later. */
  function SelectFrom(s: string, i: nat): (r: Option<Span>)
    requires i <= |s|
    ensures r.Some? ==> i <= r.value.start && r.value.lo <= r.value.hi <= |s|
    decreases |s| - i
  {
    match SelectAt(s, i)
    case Some(m) => Some(m)
    case None => if i == |s| then None else SelectFrom(s, i + 1)
  }

  lemma {:induction false} SelectFromIsFirst(s: string, i: nat)
    requires i <= |s|
    ensures SelectFrom(s, i).None? ==> NoSelectFrom(s, i)
    ensures SelectFrom(s, i).Some? ==> SelectFirstFrom(s, i, SelectFrom(s, i).value)
    decreases |s| - i
  {
    SelectAtIsFirst(s, i);
    if SelectAt(s, i).None? {
      if i < |s| {
        SelectFromIsFirst(s, i + 1);
        if SelectFrom(s, i).Some? {
          var m := SelectFrom(s, i).value;
          forall j: nat, p: nat, e: nat, t: nat | i <= j && SelectParse(s, j, p, e, t)
            ensures SelectPrecedes(m, j, p, e)
          {
            if j == i {
              assert false;
            }
          }
        }
      }
    }
  }

  /** re.search(r'SELECT\s+(.*?)\s+FROM', s, re.IGNORECASE). */
  function FindSelect(s: string): (r: Option<Span>)
    ensures r.Some? ==> r.value.lo <= r.value.hi <= |s|
  {
    SelectFrom(s, 0)
  }

  /** The SELECT search finds a match exactly when the pattern matches somewhere, and then the one Python reports. */
  lemma FindSelectIsLeftmost(s: string)
    ensures FindSelect(s).None? <==> forall i, p, e, t :: !SelectParse(s, i, p, e, t)
    ensures FindSelect(s).Some? ==> IsSelectMatch(s, FindSelect(s).value)
  {
    SelectFromIsFirst(s, 0);
    if FindSelect(s).Some? {
      var m := FindSelect(s).value;
      var t :| SelectParse(s, m.start, m.lo, m.hi, t);
    }
  }

  /** The SELECT group never contains a newline. */
  lemma SelectGroupHasNoNewline(s: string)
    requires FindSelect(s).Some?
    ensures '\n' !in s[FindSelect(s).value.lo..FindSelect(s).value.hi]
  {
    FindSelectIsLeftmost(s);
    var m := FindSelect(s).value;
    var t :| SelectParse(s, m.start, m.lo, m.hi, t);
    var g := s[m.lo..m.hi];
    forall k | 0 <= k < |g| ensures g[k] != '\n' {
      assert g[k] == s[m.lo + k];
    }
  }

  /*****************************************************************************
   * FROM\s+[`"]?(\w+)[`"]?
   *****************************************************************************/

  /**
   * One way the FROM pattern matches s: FROM at i, whitespace up to p, an
   * optional quote (a == p + 1 when it is taken), the group s[a..b] of word
   * characters. The trailing optional quote always matches.
   */
  ghost predicate TableParse(s: string, i: nat, p: nat, a: nat, b: nat) {
    CiAt(s, i, From) && i + |From| < p && AllSpace(s, i + |From|, p)
    && (a == p || (a == p + 1 && p < |s| && IsQuote(s[p])))
    && a < b && AllWord(s, a, b)
  }

  /** A FROM match at start: whitespace up to gap, the group s[lo..hi]. */
  datatype TableSpan = TableSpan(start: nat, gap: nat, lo: nat, hi: nat)

  /** m is tried no later than the parse (i, p, a, b): leftmost, longest \s+, quote taken, longest \w+. */
  ghost predicate TablePrecedes(m: TableSpan, i: nat, p: nat, a: nat, b: nat) {
    m.start < i
    || (m.start == i && (m.gap > p || (m.gap == p && (m.lo > a || (m.lo == a && m.hi >= b)))))
  }

  /** m is a parse starting at i0 or later that precedes every parse starting at i0 or later. */
  ghost predicate TableFirstFrom(s: string, i0: nat, m: TableSpan) {
    i0 <= m.start
    && TableParse(s, m.start, m.gap, m.lo, m.hi)
    && forall i, p, a, b :: i0 <= i && TableParse(s, i, p, a, b) ==> TablePrecedes(m, i, p, a, b)
  }

  /** No parse starts at i0 or later. */
  ghost predicate NoTableFrom(s: string, i0: nat) {
    forall i, p, a, b :: i0 <= i ==> !TableParse(s, i, p, a, b)
  }

  /** m is the match re.search returns. */
  ghost predicate IsTableMatch(s: string, m: TableSpan) {
    TableFirstFrom(s, 0, m)
  }

  /** The first parse of the FROM pattern that starts at i. */
  function TableAt(s: string, i: nat): (r: Option<TableSpan>)
    ensures r.Some? ==> r.value.start == i && r.value.lo < r.value.hi <= |s|
                        && AllWord(s, r.value.lo, r.value.hi)
  {
    if !CiAt(s, i, From) then None
    else
      var q := i + |From|;
      var p := SpanEnd(s, q);
      if p == q then None
      else if p + 1 < |s| && IsQuote(s[p]) && IsWordChar(s[p + 1]) then
        Some(TableSpan(i, p, p + 1, WordEnd(s, p + 1)))
      else if p < |s| && IsWordChar(s[p]) then
        Some(TableSpan(i, p, p, WordEnd(s, p)))
      else None
  }

  lemma TableAtIsFirst(s: string, i: nat)
    ensures TableAt(s, i).None? ==> forall p, a, b :: !TableParse(s, i, p, a, b)
    ensures TableAt(s, i).Some? ==> TableFirstFrom(s, i, TableAt(s, i).value)
  {
    if CiAt(s, i, From) {
      var q := i + |From|;
      var P := SpanEnd(s, q);
      forall p: nat, a: nat, b: nat | TableParse(s, i, p, a, b)
        ensures p == P && b <= WordEnd(s, a)
      {
        SpanEndIsLongest(s, q, p);
        if p < P {
          assert IsSpace(s[p]);
        }
        WordEndIsLongest(s, a, b);
      }
    }
  }

  /** The first parse of the FROM pattern that starts at i or later. */
  function TableFrom(s: string, i: nat): (r: Option<TableSpan>)
    requires i <= |s|
    ensures r.Some? ==> i <= r.value.start && r.value.lo < r.value.hi <= |s|
                        && AllWord(s, r.value.lo, r.value.hi)
    decreases |s| - i
  {
    match TableAt(s, i)
    case Some(m) => Some(m)
    case None => if i == |s| then None else TableFrom(s, i + 1)
  }

  lemma {:induction false} TableFromIsFirst(s: string, i: nat)
    requires i <= |s|
    ensures TableFrom(s, i).None? ==> NoTableFrom(s, i)
    ensures TableFrom(s, i).Some? ==> TableFirstFrom(s, i, TableFrom(s, i).value)
    decreases |s| - i
  {
    TableAtIsFirst(s, i);
    if TableAt(s, i).None? {
      if i < |s| {
        TableFromIsFirst(s, i + 1);
        if TableFrom(s, i).Some? {
          var m := TableFrom(s, i).value;
          forall j: nat, p: nat, a: nat, b: nat | i <= j && TableParse(s, j, p, a, b)
            ensures TablePrecedes(m, j, p, a, b)
          {
            if j == i {
              assert false;
            }
          }
        }
      }
    }
  }

  /** re.search(r'FROM\s+[`"]?(\w+)[`"]?', s, re.IGNORECASE). */
  function FindTable(s: string): (r: Option<TableSpan>)
    ensures r.Some? ==> r.value.lo < r.value.hi <= |s| && AllWord(s, r.value.lo, r.value.hi)
  {
    TableFrom(s, 0)
  }

  /** The FROM search finds a match exactly when the pattern matches somewhere, and then the one Python reports. */
  lemma FindTableIsLeftmost(s: string)
    ensures FindTable(s).None? <==> forall i, p, a, b :: !TableParse(s, i, p, a, b)
    ensures FindTable(s).Some? ==> IsTableMatch(s, FindTable(s).value)
  {
    TableFromIsFirst(s, 0);
  }

  /*****************************************************************************
   * (count|sum|avg|min|max)\(\s*(.*?)\s*\)
   *****************************************************************************/

  /**
   * One way the aggregate pattern matches s: alternative j at i, '(' right
   * after it, whitespace up to p, the group s[p..e] without newlines,
   * whitespace from e up to t, ')' at t.
   */
  ghost predicate CallParse(s: string, i: nat, j: nat, p: nat, e: nat, t: nat) {
    j < |Aggregates| && CiAt(s, i, Aggregates[j])
    && i + |Aggregates[j]| < |s| && s[i + |Aggregates[j]|] == '('
    && AllSpace(s, i + |Aggregates[j]| + 1, p) && p <= e <= t < |s|
    && NoNewline(s, p, e) && AllSpace(s, e, t) && s[t] == ')'
  }

  /** A call match at start with alternative fn; the argument group is s[lo..hi]. */
  datatype CallSpan = CallSpan(start: nat, fn: nat, lo: nat, hi: nat)

  /** m is tried no later than the parse (i, j, p, e): leftmost, earlier alternative, longest \s*, shortest group. */
  ghost predicate CallPrecedes(m: CallSpan, i: nat, j: nat, p: nat, e: nat) {
    m.start < i
    || (m.start == i && (m.fn < j || (m.fn == j && (m.lo > p || (m.lo == p && m.hi <= e)))))
  }

  /** m is a parse at i with alternative j0 or later that precedes every such parse. */
  ghost predicate CallFirstAt(s: string, i: nat, j0: nat, m: CallSpan) {
    m.start == i && j0 <= m.fn
    && (exists t :: CallParse(s, i, m.fn, m.lo, m.hi, t))
    && forall j, p, e, t :: j0 <= j && CallParse(s, i, j, p, e, t) ==> CallPrecedes(m, i, j, p, e)
  }

  /** m is a parse starting at i0 or later that precedes every parse starting at i0 or later. */
  ghost predicate CallFirstFrom(s: string, i0: nat, m: CallSpan) {
    i0 <= m.start
    && (exists t :: CallParse(s, m.start, m.fn, m.lo, m.hi, t))
    && forall i, j, p, e, t :: i0 <= i && CallParse(s, i, j, p, e, t) ==> CallPrecedes(m, i, j, p, e)
  }

  /** No parse starts at i0 or later. */
  ghost predicate NoCallFrom(s: string, i0: nat) {
    forall i, j, p, e, t :: i0 <= i ==> !CallParse(s, i, j, p, e, t)
  }

  /** m is the match re.search returns. */
  ghost predicate IsCallMatch(s: string, m: CallSpan) {
    CallFirstFrom(s, 0, m)
  }

  /** The bounds every call match satisfies, so that its name and argument can be sliced out. */
  predicate WellPlaced(s: string, m: CallSpan) {
    m.fn < |Aggregates| && m.start + |Aggregates[m.fn]| < m.lo <= m.hi <= |s|
  }

  /** The first parse of the aggregate pattern at i that uses alternative j. */
  function CallWith(s: string, i: nat, j: nat): (r: Option<CallSpan>)
    requires j < |Aggregates|
    ensures r.Some? ==> r.value.start == i && r.value.fn == j && WellPlaced(s, r.value)
  {
    var f := Aggregates[j];
    if !(CiAt(s, i, f) && i + |f| < |s| && s[i + |f|] == '(') then None
    else
      var p := SpanEnd(s, i + |f| + 1);
      match LazyEnd(s, p, p, CloseParen)
      case Some(e) => Some(CallSpan(i, j, p, e))
      case None => None
  }

  lemma CallWithIsFirst(s: string, i: nat, j: nat)
    requires j < |Aggregates|
    ensures CallWith(s, i, j).None? ==> forall p, e, t :: !CallParse(s, i, j, p, e, t)
    ensures CallWith(s, i, j).Some? ==> CallFirstAt(s, i, j, CallWith(s, i, j).value)
  {
    var f := Aggregates[j];
    if CiAt(s, i, f) && i + |f| < |s| && s[i + |f|] == '(' {
      var q := i + |f| + 1;
      var P := SpanEnd(s, q);
      forall p: nat, e: nat, t: nat | CallParse(s, i, j, p, e, t)
        ensures p <= P && Closes(s, e, CloseParen) && t == SpanEnd(s, e)
      {
        SpanEndIsLongest(s, q, p);
        CloseTail(s, e, t);
      }
      match LazyEnd(s, P, P, CloseParen)
      case Some(e) =>
        assert CallParse(s, i, j, P, e, SpanEnd(s, e));
      case None =>
        forall p: nat, e: nat, t: nat | CallParse(s, i, j, p, e, t) ensures false {
          if e < P {
            SpanEndInside(s, q, e);
          }
        }
    }
  }

  /** The first parse of the aggregate pattern at i that uses alternative j or a later one. */
  function CallAt(s: string, i: nat, j: nat): (r: Option<CallSpan>)
    requires j <= |Aggregates|
    ensures r.Some? ==> r.value.start == i && j <= r.value.fn && WellPlaced(s, r.value)
    decreases |Aggregates| - j
  {
    if j == |Aggregates| then None
    else
      match CallWith(s, i, j)
      case Some(m) => Some(m)
      case None => CallAt(s, i, j + 1)
  }

  lemma {:induction false} CallAtIsFirst(s: string, i: nat, j: nat)
    requires j <= |Aggregates|
    ensures CallAt(s, i, j).None? ==> forall k, p, e, t :: j <= k ==> !CallParse(s, i, k, p, e, t)
    ensures CallAt(s, i, j).Some? ==> CallFirstAt(s, i, j, CallAt(s, i, j).value)
    decreases |Aggregates| - j
  {
    if j < |Aggregates| {
      CallWithIsFirst(s, i, j);
      if CallWith(s, i, j).None? {
        CallAtIsFirst(s, i, j + 1);
        if CallAt(s, i, j).Some? {
          AlternativeSkip(s, i, j, CallAt(s, i, j).value);
        }
      }
    }
  }

  /** An alternative with no parse at i does not change which parse comes first there. */
  lemma AlternativeSkip(s: string, i: nat, j: nat, m: CallSpan)
    requires forall p, e, t :: !CallParse(s, i, j, p, e, t)
    requires CallFirstAt(s, i, j + 1, m)
    ensures CallFirstAt(s, i, j, m)
  {
    forall k: nat, p: nat, e: nat, t: nat | j <= k && CallParse(s, i, k, p, e, t)
      ensures CallPrecedes(m, i, k, p, e)
    {
      if k == j {
        assert false;
      }
    }
  }

  /** The first parse of the aggregate pattern that starts at i or later. */
  function CallFrom(s: string, i: nat): (r: Option<CallSpan>)
    requires i <= |s|
    ensures r.Some? ==> i <= r.value.start && WellPlaced(s, r.value)
    decreases |s| - i
  {
    match CallAt(s, i, 0)
    case Some(m) => Some(m)
    case None => if i == |s| then None else CallFrom(s, i + 1)
  }

  /** Trying every alternative at i gives the first parse that starts at i or later, if any starts at i. */
  lemma CallsAtIsFirst(s: string, i: nat)
    ensures CallAt(s, i, 0).None? ==> forall k, p, e, t :: !CallParse(s, i, k, p, e, t)
    ensures CallAt(s, i, 0).Some? ==> CallFirstFrom(s, i, CallAt(s, i, 0).value)
  {
    CallAtIsFirst(s, i, 0);
    if CallAt(s, i, 0).Some? {
      var m := CallAt(s, i, 0).value;
      var t :| CallParse(s, i, m.fn, m.lo, m.hi, t);
      assert CallParse(s, m.start, m.fn, m.lo, m.hi, t);
    }
  }

  /** No call can start at the very end of the string. */
  lemma NoCallAtEnd(s: string)
    ensures NoCallFrom(s, |s|)
  {
    forall i: nat, j: nat, p: nat, e: nat, t: nat | |s| <= i ensures !CallParse(s, i, j, p, e, t) {
      if j < |Aggregates| {
        assert |Aggregates[j]| > 0;
      }
    }
  }

  /** Skipping a start position where nothing matches keeps the first match. */
  lemma CallSkip(s: string, i: nat, m: CallSpan)
    requires forall j, p, e, t :: !CallParse(s, i, j, p, e, t)
    requires CallFirstFrom(s, i + 1, m)
    ensures CallFirstFrom(s, i, m)
  {
  }

  /** Skipping a start position where nothing matches keeps the absence of a match. */
  lemma NoCallSkip(s: string, i: nat)
    requires forall j, p, e, t :: !CallParse(s, i, j, p, e, t)
    requires NoCallFrom(s, i + 1)
    ensures NoCallFrom(s, i)
  {
  }

  lemma {:induction false} CallFromIsFirst(s: string, i: nat)
    requires i <= |s|
    ensures CallFrom(s, i).None? ==> NoCallFrom(s, i)
    ensures CallFrom(s, i).Some? ==> CallFirstFrom(s, i, CallFrom(s, i).value)
    decreases |s| - i
  {
    CallsAtIsFirst(s, i);
    if CallAt(s, i, 0).None? {
      if i == |s| {
        NoCallAtEnd(s);
      } else {
        CallFromIsFirst(s, i + 1);
        if CallFrom(s, i).Some? {
          CallSkip(s, i, CallFrom(s, i).value);
        } else {
          NoCallSkip(s, i);
        }
      }
    }
  }

  /** re.search(r'(count|sum|avg|min|max)\(\s*(.*?)\s*\)', s, re.IGNORECASE). */
  function FindCall(s: string): (r: Option<CallSpan>)
    ensures r.Some? ==> WellPlaced(s, r.value)
  {
    CallFrom(s, 0)
  }

  /** The aggregate search finds a match exactly when the pattern matches somewhere, and then the one Python reports. */
  lemma FindCallIsLeftmost(s: string)
    ensures FindCall(s).None? <==> forall i, j, p, e, t :: !CallParse(s, i, j, p, e, t)
    ensures FindCall(s).Some? ==> IsCallMatch(s, FindCall(s).value)
  {
    CallFromIsFirst(s, 0);
    if FindCall(s).Some? {
      var m := FindCall(s).value;
      var t :| CallParse(s, m.start, m.fn, m.lo, m.hi, t);
    }
  }

  /*****************************************************************************
   * (count|sum|avg|min|max)\( on the lower-cased clause
   *****************************************************************************/

  /** One of the call openings occurs literally at i. */
  predicate CallOpensAt(l: string, i: nat) {
    exists j :: 0 <= j < |Calls| && At(l, i, Calls[j])
  }

  /** Some call opening occurs literally at i or later. */
  function OpensFrom(l: string, i: nat): (r: bool)
    requires i <= |l|
    ensures r ==> exists h :: i <= h < |l| && l[h] == '('
    decreases |l| - i
  {
    if CallOpensAt(l, i) then
      var j :| 0 <= j < |Calls| && At(l, i, Calls[j]);
      var w := Calls[j];
      assert w[|w| - 1] == '(';
      assert l[i..i + |w|][|w| - 1] == l[i + |w| - 1];
      true
    else i < |l| && OpensFrom(l, i + 1)
  }

  /** re.search(r'(count|sum|avg|min|max)\(', clause.lower()) finds something. */
  predicate MentionsAggregate(clause: string)
    ensures MentionsAggregate(clause) ==> '(' in clause
  {
    var l := LowerAll(clause);
    var r := OpensFrom(l, 0);
    if r then
      var h :| 0 <= h < |l| && l[h] == '(';
      assert clause[h] == '(';
      true
    else false
  }

  lemma {:induction false} OpensFromIff(l: string, i: nat)
    requires i <= |l|
    ensures OpensFrom(l, i) <==> exists h, j :: i <= h && 0 <= j < |Calls| && At(l, h, Calls[j])
    decreases |l| - i
  {
    if i < |l| {
      OpensFromIff(l, i + 1);
      if OpensFrom(l, i) && !CallOpensAt(l, i) {
        var h, j :| i + 1 <= h && 0 <= j < |Calls| && At(l, h, Calls[j]);
      }
    } else {
      assert forall j :: 0 <= j < |Calls| ==> |Calls[j]| > 0;
    }
  }

  /** The test holds exactly when "count(", "sum(", "avg(", "min(" or "max(" occurs in the lower-cased clause. */
  lemma MentionsAggregateIff(clause: string)
    ensures MentionsAggregate(clause)
            <==> exists h, j :: 0 <= j < |Calls| && At(LowerAll(clause), h, Calls[j])
  {
    OpensFromIff(LowerAll(clause), 0);
  }

  /** A clause without an opening parenthesis never passes the test. */
  lemma NoParenNoAggregate(clause: string)
    requires '(' !in clause
    ensures !MentionsAggregate(clause)
  {
    MentionsAggregateIff(clause);
    assert forall j :: 0 <= j < |Calls| ==> Calls[j][|Calls[j]| - 1] == '(';
  }

  /** A case-insensitive call at i is a literal call opening in the lower-cased string. */
  lemma CallOpensWhereCalled(s: string, i: nat, j: nat)
    requires j < |Aggregates| && CiAt(s, i, Aggregates[j])
    requires i + |Aggregates[j]| < |s| && s[i + |Aggregates[j]|] == '('
    ensures At(LowerAll(s), i, Calls[j])
  {
    var f := Aggregates[j];
    var l := LowerAll(s);
    CallsAreOpenings();
    forall k | 0 <= k < |f| + 1 ensures l[i..i + |f| + 1][k] == Calls[j][k] {
      if k < |f| {
        assert Lower(s[i + k]) == f[k];
      }
    }
    assert l[i..i + |f| + 1] == Calls[j];
  }

  /** Whenever the aggregate search matches, the plain test holds too. */
  lemma CallMatchMentionsAggregate(s: string)
    requires FindCall(s).Some?
    ensures MentionsAggregate(s)
  {
    var m := FindCall(s).value;
    FindCallIsLeftmost(s);
    var t :| CallParse(s, m.start, m.fn, m.lo, m.hi, t);
    CallOpensWhereCalled(s, m.start, m.fn);
    MentionsAggregateIff(s);
  }
}

=== FILE: results.dfy ===
/** Option and Result values for lookups that may find nothing and calls that may raise. */
module Results {

  /** A value that may be absent, such as a regex search that found no match. */
  datatype Option<T> = None | Some(value: T)

  /** The outcome of a call that may raise: the value it returned or the message of what it raised. */
  datatype Result<T, E> = Success(value: T) | Failure(error: E)
}

=== FILE: scenarios.dfy ===
/**
 * Worked examples of the label inference on queries of the shapes the
 * few-shot prompt in Sql_Integration/sql.py asks for: an aggregate, a
 * wildcard over `t_shirts`, and a DISTINCT projection.
 */
module Scenarios {
  import opened Results
  import opened Text
  import opened Patterns
  import opened Labels

  lemma CountClauseCall()
    ensures FindCall("COUNT(*)") == Some(CallSpan(0, 0, 6, 7))
  {
    var c := "COUNT(*)";
    assert CiAt(c, 0, Aggregates[0]);
    assert SpanEnd(c, 6) == 6;
    assert SpanEnd(c, 7) == 7;
    assert LazyEnd(c, 6, 6, CloseParen) == Some(7);
    assert CallWith(c, 0, 0) == Some(CallSpan(0, 0, 6, 7));
  }

  lemma CountClauseMentions()
    ensures MentionsAggregate("COUNT(*)")
  {
    CountClauseCall();
    CallMatchMentionsAggregate("COUNT(*)");
  }

  /** A query whose projection clause is COUNT(*), as in SELECT COUNT(*) FROM t_shirts, labels its one column COUNT. */
  lemma CountStarLabel(sql: string, schema: Schema)
    requires ProjectionClause(sql) == Some("COUNT(*)")
    ensures LabelColumns(sql, 1, schema) == Success(["COUNT"])
  {
    CountClauseMentions();
    CountClauseCall();
    AggregateCandidate(sql, schema);
    var g := "COUNT(*)"[6..7];
    assert g[0] == '*';
    assert g == "*";
    assert Candidates(sql, schema) == Success(["COUNT"]);
    EnoughCandidates(sql, ["COUNT"], 1, schema);
  }

  const StarQuery: string := "SELECT * FROM `t_shirts`;"

  lemma StarQueryFrom()
    ensures LazyEnd(StarQuery, 7, 7, FromKeyword) == Some(8)
  {
    var sql := StarQuery;
    assert SpanEnd(sql, 8) == 9;
    assert CiAt(sql, 9, From);
  }

  lemma StarQuerySelect()
    ensures FindSelect(StarQuery) == Some(Span(0, 7, 8))
  {
    var sql := StarQuery;
    assert CiAt(sql, 0, Select);
    assert SpanEnd(sql, 6) == 7;
    StarQueryFrom();
    assert SelectAt(sql, 0) == Some(Span(0, 7, 8));
  }

  lemma StarQueryClause()
    ensures ProjectionClause(StarQuery) == Some("*")
  {
    StarQuerySelect();
    var g := StarQuery[7..8];
    assert g[0] == '*';
    assert g == "*";
  }

  /** A position whose character is not an f cannot start the FROM pattern. */
  lemma TableSkip(s: string, i: nat)
    requires i < |s| && s[i] != 'f' && s[i] != 'F'
    ensures TableFrom(s, i) == TableFrom(s, i + 1)
  {
    assert !CiAt(s, i, From) by {
      assert Lower(s[i + 0]) != From[0];
    }
  }

  /** A run of positions none of which holds an f is skipped by the FROM search. */
  lemma {:induction false} TableSkipRun(s: string, i: nat, j: nat)
    requires i <= j <= |s|
    requires forall k | i <= k < j :: s[k] != 'f' && s[k] != 'F'
    ensures TableFrom(s, i) == TableFrom(s, j)
    decreases j - i
  {
    if i < j {
      TableSkip(s, i);
      TableSkipRun(s, i + 1, j);
    }
  }

  lemma StarQueryTableSkip()
    ensures TableFrom(StarQuery, 0) == TableFrom(StarQuery, 9)
  {
    var sql := StarQuery;
    assert forall k | 0 <= k < 9 :: sql[k] != 'f' && sql[k] != 'F';
    TableSkipRun(sql, 0, 9);
  }

  lemma StarQueryTableAt()
    ensures TableAt(StarQuery, 9) == Some(TableSpan(9, 14, 15, 23))
  {
    var sql := StarQuery;
    assert CiAt(sql, 9, From);
    assert SpanEnd(sql, 13) == 14;
    assert WordEnd(sql, 15) == 23;
  }

  lemma StarQueryTableText()
    ensures StarQuery[15..23] == "t_shirts"
  {
    var g := StarQuery[15..23];
    assert g[0] == 't' && g[1] == '_' && g[2] == 's' && g[3] == 'h';
    assert g[4] == 'i' && g[5] == 'r' && g[6] == 't' && g[7] == 's';
  }

  lemma StarQueryTable()
    ensures TableName(StarQuery) == Some("t_shirts")
  {
    StarQueryTableSkip();
    StarQueryTableAt();
    StarQueryTableText();
    assert FindTable(StarQuery) == Some(TableSpan(9, 14, 15, 23));
  }

  /** SELECT * FROM `t_shirts`; takes its labels from the schema of t_shirts. */
  lemma StarQueryLabels(schema: Schema, n: nat)
    requires schema("t_shirts").Success?
    ensures var cols := schema("t_shirts").value;
            LabelColumns(StarQuery, n, schema)
            == Success(if |cols| > 0 && |cols| >= n then cols[..n] else Positional(n))
  {
    StarQueryClause();
    StarQueryTable();
    WildcardTakesSchema(StarQuery, n, schema);
  }

  lemma DistinctQuotedPieces()
    ensures "DISTINCT" + " `" + "color" + "`" == "DISTINCT `color`"
  {
    var s := "DISTINCT" + " `" + "color" + "`";
    assert s[..8] == "DISTINCT" && s[8..10] == " `" && s[10..15] == "color" && s[15..] == "`";
  }

  lemma DistinctPlainPieces()
    ensures "DISTINCT" + " " + "color" == "DISTINCT color"
  {
    var s := "DISTINCT" + " " + "color";
    assert s[..8] == "DISTINCT" && s[8..9] == " " && s[9..] == "color";
  }

  /** The clause DISTINCT `color` is an ordinary one-piece list whose label keeps the keyword. */
  lemma DistinctClauseLabels()
    ensures !MentionsAggregate("DISTINCT `color`")
    ensures ListLabels("DISTINCT `color`") == ["DISTINCT color"]
  {
    NoParenNoAggregate("DISTINCT `color`");
    DistinctQuotedPieces();
    DistinctPlainPieces();
    PrefixedQuotedLabel("DISTINCT", "color");
  }

  /**
   * The prompt's example SELECT DISTINCT `color` FROM `t_shirts` WHERE ...
   * has the projection clause DISTINCT `color`; its one column is labelled
   * "DISTINCT color", keyword included.
   */
  lemma DistinctColumnLabel(sql: string, schema: Schema)
    requires ProjectionClause(sql) == Some("DISTINCT `color`")
    ensures LabelColumns(sql, 1, schema) == Success(["DISTINCT color"])
  {
    DistinctClauseLabels();
    ColumnListLabels(sql, 1, schema);
  }
}

=== FILE: text.dfy ===
/**
 * Character classes and string operations that the label inference relies on:
 * Python's whitespace class, ASCII case mapping, str.strip, str.split(','),
 * str.replace('`', '') and the decimal rendering of i + 1 in "column_{i+1}".
 */
module Text {

  /** The characters for which Python's str.isspace() holds; this is also the \s class of a str pattern. */
  predicate IsSpace(c: char) {
    var k := c as int;
    (9 <= k <= 13) || (28 <= k <= 32) || k == 0x85 || k == 0xA0 || k == 0x1680
    || (0x2000 <= k <= 0x200A) || k == 0x2028 || k == 0x2029 || k == 0x202F
    || k == 0x205F || k == 0x3000
  }

  /** The \w class, restricted to ASCII letters, digits and the underscore. */
  predicate IsWordChar(c: char) {
    'a' <= c <= 'z' || 'A' <= c <= 'Z' || '0' <= c <= '9' || c == '_'
  }

  /** The optional quoting characters around a table name: a backtick or a double quote. */
  predicate IsQuote(c: char) {
    c == '`' || c == '"'
  }

  predicate IsDigit(c: char) {
    '0' <= c <= '9'
  }

  /** ASCII lower-casing; every other character is left alone. */
  function Lower(c: char): (r: char)
    ensures !('A' <= r <= 'Z')
    ensures !('A' <= c <= 'Z') ==> r == c
  {
    if 'A' <= c <= 'Z' then (c as int + 32) as char else c
  }

  /** ASCII upper-casing; every other character is left alone. */
  function Upper(c: char): (r: char)
    ensures !('a' <= r <= 'z')
    ensures !('a' <= c <= 'z') ==> r == c
  {
    if 'a' <= c <= 'z' then (c as int - 32) as char else c
  }

  /** Each ASCII letter is sent to its own counterpart in the other case, and back. */
  lemma CaseRoundTrip(c: char)
    ensures 'A' <= c <= 'Z' ==> 'a' <= Lower(c) <= 'z' && Upper(Lower(c)) == c
    ensures 'a' <= c <= 'z' ==> 'A' <= Upper(c) <= 'Z' && Lower(Upper(c)) == c
  {
  }

  /** The string lower-cased character by character, as str.lower() does on ASCII text. */
  function LowerAll(s: string): (r: string)
    ensures |r| == |s|
    ensures forall k :: 0 <= k < |s| ==> r[k] == Lower(s[k])
  {
    seq(|s|, k requires 0 <= k < |s| => Lower(s[k]))
  }

  /** The string upper-cased character by character, as str.upper() does on ASCII text. */
  function UpperAll(s: string): (r: string)
    ensures |r| == |s|
    ensures forall k :: 0 <= k < |s| ==> r[k] == Upper(s[k])
  {
    seq(|s|, k requires 0 <= k < |s| => Upper(s[k]))
  }

  /** The lower-case word w occurs at position i of s, ignoring ASCII case. */
  predicate CiAt(s: string, i: nat, w: string) {
    i + |w| <= |s| && forall k :: 0 <= k < |w| ==> Lower(s[i + k]) == w[k]
  }

  /** The word w occurs literally at position i of s. */
  predicate At(s: string, i: nat, w: string) {
    i + |w| <= |s| && s[i..i + |w|] == w
  }

  /** Every character of s[a..b] is whitespace. */
  predicate AllSpace(s: string, a: nat, b: nat) {
    a <= b <= |s| && forall k :: a <= k < b ==> IsSpace(s[k])
  }

  /** Every character of s[a..b] is a word character. */
  predicate AllWord(s: string, a: nat, b: nat) {
    a <= b <= |s| && forall k :: a <= k < b ==> IsWordChar(s[k])
  }

  /** No character of s[a..b] is a newline: the stretch the regex '.' may cover. */
  predicate NoNewline(s: string, a: nat, b: nat) {
    a <= b <= |s| && forall k :: a <= k < b ==> s[k] != '\n'
  }

  /** The end of the longest run of whitespace that starts at a. */
  function SpanEnd(s: string, a: nat): (r: nat)
    requires a <= |s|
    ensures a <= r <= |s| && AllSpace(s, a, r)
    ensures r == |s| || !IsSpace(s[r])
    decreases |s| - a
  {
    if a == |s| || !IsSpace(s[a]) then a else SpanEnd(s, a + 1)
  }

  /** The end of the longest run of word characters that starts at a. */
  function WordEnd(s: string, a: nat): (r: nat)
    requires a <= |s|
    ensures a <= r <= |s| && AllWord(s, a, r)
    ensures r == |s| || !IsWordChar(s[r])
    decreases |s| - a
  {
    if a == |s| || !IsWordChar(s[a]) then a else WordEnd(s, a + 1)
  }

  /** A whitespace run cannot reach past the end of the longest one. */
  lemma SpanEndIsLongest(s: string, a: nat, b: nat)
    requires AllSpace(s, a, b)
    ensures b <= SpanEnd(s, a)
  {
  }

  /** Starting anywhere inside the longest run ends the run at the same place. */
  lemma SpanEndInside(s: string, a: nat, b: nat)
    requires a <= |s| && a <= b <= SpanEnd(s, a)
    ensures SpanEnd(s, b) == SpanEnd(s, a)
  {
    var r := SpanEnd(s, a);
    assert AllSpace(s, b, r);
    SpanEndIsLongest(s, b, r);
    SpanEndIsLongest(s, a, SpanEnd(s, b));
  }

  /** A word-character run cannot reach past the end of the longest one. */
  lemma WordEndIsLongest(s: string, a: nat, b: nat)
    requires AllWord(s, a, b)
    ensures b <= WordEnd(s, a)
  {
  }

  /** s without its leading whitespace. */
  function TrimStart(s: string): (r: string)
    ensures |r| <= |s| && r == s[|s| - |r|..]
    ensures forall k :: 0 <= k < |s| - |r| ==> IsSpace(s[k])
    ensures r == [] || !IsSpace(r[0])
  {
    if s != [] && IsSpace(s[0]) then TrimStart(s[1..]) else s
  }

  /** s without its trailing whitespace. */
  function TrimEnd(s: string): (r: string)
    ensures |r| <= |s| && r == s[..|r|]
    ensures forall k :: |r| <= k < |s| ==> IsSpace(s[k])
    ensures r == [] || !IsSpace(r[|r| - 1])
  {
    if s != [] && IsSpace(s[|s| - 1]) then TrimEnd(s[..|s| - 1]) else s
  }

  /** Python's str.strip() with no argument. */
  function Strip(s: string): (r: string)
    ensures |r| <= |s|
    ensures r == [] || (!IsSpace(r[0]) && !IsSpace(r[|r| - 1]))
  {
    TrimEnd(TrimStart(s))
  }

  /** Strip keeps a string that neither starts nor ends with whitespace. */
  lemma StripKeepsTrimmed(s: string)
    requires s == [] || (!IsSpace(s[0]) && !IsSpace(s[|s| - 1]))
    ensures Strip(s) == s
  {
  }

  /** TrimStart of a string of whitespace is empty. */
  lemma {:induction false} TrimStartAllSpace(w: string)
    requires forall k :: 0 <= k < |w| ==> IsSpace(w[k])
    ensures TrimStart(w) == []
    decreases |w|
  {
    if w != [] {
      TrimStartAllSpace(w[1..]);
    }
  }

  /** TrimStart drops exactly a whitespace prefix in front of a string that does not start with whitespace. */
  lemma {:induction false} TrimStartPadded(w: string, t: string)
    requires forall k :: 0 <= k < |w| ==> IsSpace(w[k])
    requires t == [] || !IsSpace(t[0])
    ensures TrimStart(w + t) == t
    decreases |w|
  {
    if w != [] {
      assert (w + t)[1..] == w[1..] + t;
      TrimStartPadded(w[1..], t);
    } else {
      assert w + t == t;
    }
  }

  /** TrimEnd drops exactly a whitespace suffix behind a string that does not end with whitespace. */
  lemma {:induction false} TrimEndPadded(t: string, w: string)
    requires forall k :: 0 <= k < |w| ==> IsSpace(w[k])
    requires t == [] || !IsSpace(t[|t| - 1])
    ensures TrimEnd(t + w) == t
    decreases |w|
  {
    if w != [] {
      assert (t + w)[..|t + w| - 1] == t + w[..|w| - 1];
      TrimEndPadded(t, w[..|w| - 1]);
    } else {
      assert t + w == t;
    }
  }

  /** Strip removes exactly the surrounding whitespace. */
  lemma StripPadded(w: string, s: string, w': string)
    requires forall k :: 0 <= k < |w| ==> IsSpace(w[k])
    requires forall k :: 0 <= k < |w'| ==> IsSpace(w'[k])
    requires s == [] || (!IsSpace(s[0]) && !IsSpace(s[|s| - 1]))
    ensures Strip(w + s + w') == s
  {
    if s == [] {
      assert w + s + w' == w + w';
      TrimStartAllSpace(w + w');
    } else {
      assert w + s + w' == w + (s + w');
      TrimStartPadded(w, s + w');
      TrimEndPadded(s, w');
    }
  }

  /** The position of the first comma in s, if there is one. */
  function FirstComma(s: string): (r: nat)
    ensures r <= |s|
    ensures r < |s| ==> s[r] == ','
    ensures forall k :: 0 <= k < r ==> s[k] != ','
  {
    if s == [] || s[0] == ',' then 0 else 1 + FirstComma(s[1..])
  }

  /** Python's s.split(','): the pieces between the commas, in order, empty pieces kept. */
  function Split(s: string): (r: seq<string>)
    ensures |r| >= 1
    ensures forall k :: 0 <= k < |r| ==> ',' !in r[k]
    decreases |s|
  {
    var i := FirstComma(s);
    if i == |s| then [s] else [s[..i]] + Split(s[i + 1..])
  }

  /** ",".join(pieces): the inverse of Split. */
  function Join(pieces: seq<string>): string
    requires |pieces| >= 1
  {
    if |pieces| == 1 then pieces[0] else pieces[0] + "," + Join(pieces[1..])
  }

  /** Joining the pieces of a split gives back the original string. */
  lemma {:induction false} JoinSplit(s: string)
    ensures Join(Split(s)) == s
    decreases |s|
  {
    var i := FirstComma(s);
    if i < |s| {
      var rest := Split(s[i + 1..]);
      JoinSplit(s[i + 1..]);
      assert Split(s) == [s[..i]] + rest;
      assert Join(Split(s)) == s[..i] + "," + Join(rest);
      assert s == s[..i] + "," + s[i + 1..];
    }
  }

  /** Splitting comma-free pieces joined by commas gives back the pieces. */
  lemma {:induction false} SplitJoin(pieces: seq<string>)
    requires |pieces| >= 1
    requires forall k :: 0 <= k < |pieces| ==> ',' !in pieces[k]
    ensures Split(Join(pieces)) == pieces
    decreases |pieces|
  {
    var s := Join(pieces);
    var p := pieces[0];
    assert forall k :: 0 <= k < |p| ==> p[k] != ',' by {
      forall k | 0 <= k < |p| ensures p[k] != ',' {
        assert p[k] in p;
      }
    }
    if |pieces| == 1 {
      assert FirstComma(s) == |s| by { FirstCommaOfPiece(p, ""); }
    } else {
      var rest := Join(pieces[1..]);
      assert s == p + ("," + rest);
      FirstCommaOfPiece(p, "," + rest);
      assert ("," + rest)[0] == ',';
      assert s[..|p|] == p;
      assert s[|p| + 1..] == rest;
      assert FirstComma(s) == |p|;
      SplitJoin(pieces[1..]);
      assert Split(s) == [p] + Split(rest);
      assert pieces == [p] + pieces[1..];
    }
  }

  /** The first comma of p + t lies in t when p has none. */
  lemma {:induction false} FirstCommaOfPiece(p: string, t: string)
    requires forall k :: 0 <= k < |p| ==> p[k] != ','
    ensures FirstComma(p + t) == |p| + FirstComma(t)
    decreases |p|
  {
    if p != [] {
      assert (p + t)[1..] == p[1..] + t;
      FirstCommaOfPiece(p[1..], t);
    } else {
      assert p + t == t;
    }
  }

  /** s with every occurrence of the character c deleted: s.replace(c, ''). */
  function Remove(s: string, c: char): (r: string)
    ensures c !in r
    ensures |r| <= |s|
    ensures c !in s ==> r == s
  {
    if s == [] then []
    else (if s[0] == c then [] else [s[0]]) + Remove(s[1..], c)
  }

  /** Exactly the occurrences of c go: the result is shorter by their number, so nothing is replaced. */
  lemma {:induction false} RemoveLength(s: string, c: char)
    ensures |Remove(s, c)| == |s| - multiset(s)[c]
  {
    if s != [] {
      RemoveLength(s[1..], c);
      assert s == [s[0]] + s[1..];
      assert multiset(s) == multiset([s[0]]) + multiset(s[1..]);
    }
  }

  /** Deleting a character distributes over concatenation. */
  lemma {:induction false} RemoveConcat(a: string, b: string, c: char)
    ensures Remove(a + b, c) == Remove(a, c) + Remove(b, c)
    decreases |a|
  {
    if a != [] {
      assert (a + b)[1..] == a[1..] + b;
      RemoveConcat(a[1..], b, c);
    } else {
      assert a + b == b;
    }
  }

  /** The decimal digit character for d. */
  function DigitChar(d: nat): (r: char)
    requires d < 10
    ensures IsDigit(r)
  {
    ('0' as int + d) as char
  }

  /** The value of a decimal digit character. */
  function DigitValue(c: char): (r: nat)
    requires IsDigit(c)
    ensures r < 10 && DigitChar(r) == c
  {
    c as int - '0' as int
  }

  /** str(k) for a non-negative integer: its decimal digits, most significant first. */
  function NatToString(k: nat): (r: string)
    ensures |r| >= 1
    ensures forall i :: 0 <= i < |r| ==> IsDigit(r[i])
    ensures r[0] == '0' ==> k == 0
  {
    if k < 10 then [DigitChar(k)] else NatToString(k / 10) + [DigitChar(k % 10)]
  }

  /** int(s) for a string of decimal digits. */
  function ParseNat(s: string): (r: nat)
    requires forall i :: 0 <= i < |s| ==> IsDigit(s[i])
  {
    if s == [] then 0 else 10 * ParseNat(s[..|s| - 1]) + DigitValue(s[|s| - 1])
  }

  /** Reading back the decimal rendering of k gives k. */
  lemma {:induction false} ParseNatToString(k: nat)
    ensures ParseNat(NatToString(k)) == k
  {
    var s := NatToString(k);
    if k >= 10 {
      ParseNatToString(k / 10);
      assert s[..|s| - 1] == NatToString(k / 10);
    } else {
      assert s[..|s| - 1] == [];
    }
  }

  /** Different numbers have different decimal renderings. */
  lemma NatToStringInjective(a: nat, b: nat)
    requires NatToString(a) == NatToString(b)
    ensures a == b
  {
    ParseNatToString(a);
    ParseNatToString(b);
  }
}
